=== FILE: README.md ===
# Product-Manager state layer in Dafny

This project models the client-side state layer of a small React/Redux
product-catalogue app:

- **Catalog store.** This is the `products` slice: a reducer over
  `{products, total, isLoading, error}`. It handles the pending, fulfilled
  and rejected settlements of the fetch, add, update and delete thunks. The
  thunks build payloads that override fields the server sent back. A fresh
  local id replaces the placeholder id the demo API echoes for every
  create. Updates set `isUpdated`.
- **Session store.** This is the `auth` slice: a reducer over
  `{user, token, isLoading, error, isAuthenticated}`. It covers the
  decisions of the `loginUser` and `registerUser` thunks against a locally
  stored user directory, and the storage keys they write.
- **User directory.** This is `userStorage`. It appends a user, finds the
  first exact username and password match, and detects a username OR email
  collision.
- **Route gate.** This is the route table of `AppContent` with
  `ProtectedRoute`, as a pure function from (location, isAuthenticated) to
  a page, a redirect, or no match.

Products and users are plain JavaScript objects. Here they are finite maps
from field name to `Value` (`Records.Record`). Object spread
`{...a, ...b}` is the right-biased map union `Records.Overlay`. A missing
field reads as `None`, which stands for `undefined`, so `p.id === id`
also matches two missing ids, as it does in JavaScript.

Browser storage is `Storage.Store`, a map from key to entry. The JSON
encoding is abstracted: an entry keeps the decoded record or list.

The following are all inputs, not effects:
- network responses (`Async.Response`);
- `Date.now()` readings;
- `new Date().toISOString()`.

Each dispatched action is one atomic transition. `ProductsSlice.Dispatch`
runs a thunk's pending action and then its settlement as one step, and
`ProductsSlice.Run` runs a sequence of such requests.
`AuthSlice.DispatchLogin` and `AuthSlice.DispatchRegister` do the same for
the session store.

Modules:
- `Wrappers`: `Option`.
- `Records`: field values, records, and the spread.
- `Storage`: local storage.
- `Digits`: decimal rendering of timestamps, with its inverse.
- `Async`: responses, settlements, and the fallback-message rule.
- `Seqs`: `findIndex` and `filter`.
- `UserStorage`, `AuthSlice`, `ProductsSlice` and `ProductsProperties`:
  the stores.
- `Routes`: the route table.

The code behaves as follows in these places, and the model does the same:
- The initial `isAuthenticated` is `!!localStorage.getItem('token')`. A
  stored empty-string token therefore counts as no session.
- The route table has no `/register` route. That location matches nothing.
- `clearError` on the session store only clears `error`. It has no state
  transition beyond that.
- A successful add or delete recomputes `total` as the list's length. After
  a fetch whose reported total exceeds the page length, `total` therefore
  drops to the list's length.

## Model

| member | source | states |
|---|---|---|
| Records.Overlay | src/store/slices/productsSlice.js:141-144 | the merged object has the union of the fields; the payload's fields win, and every field the payload lacks keeps its old value |
| Digits.NatToString | src/store/slices/authSlice.js:15 | `String(n)` of a timestamp is a non-empty string of decimal digits with no leading zero, and `"0"` for 0 |
| Digits.NatToStringRoundTrip | src/store/slices/authSlice.js:15 | reading back the decimal rendering of a timestamp gives the timestamp |
| Async.RejectMessage | src/store/slices/productsSlice.js:12 | the rejection message is the server's message when it is present and non-empty, otherwise the operation's fallback text |
| Seqs.FirstIndex | src/store/slices/productsSlice.js:138 | returns the least index whose element passes the test, or none exactly when no element passes |
| Seqs.Filter | src/store/slices/productsSlice.js:163 | the result holds exactly the elements of the input that pass the test; when all pass it is the input |
| Seqs.FilterConcat | src/store/slices/productsSlice.js:163 | filtering distributes over concatenation, so the survivors keep their relative order |
| Seqs.FilterKeepsDistinct | src/store/slices/productsSlice.js:163 | filtering a list whose keys are pairwise distinct leaves them pairwise distinct |
| UserStorage.GetUsers | src/utils/userStorage.js:16-19 | an absent key, or an empty stored string, gives the empty directory; a stored list is returned as stored |
| UserStorage.FindUser | src/utils/userStorage.js:21-24 | some record is returned iff some user has both this username and this password; it is the first such user |
| UserStorage.UserExists | src/utils/userStorage.js:26-29 | true iff some user has this username OR this email |
| UserStorage.SaveUser | src/utils/userStorage.js:4-14 | the directory grows by exactly one record at the end, and earlier records are unchanged; the record is the input fields with `id` and `createdAt` set from the clock; no other storage key changes |
| UserStorage.SavedUserIsFound | src/utils/userStorage.js:4-24 | after saving a user, looking up their username and password finds a record; it is the saved one when no earlier user had that pair |
| UserStorage.SavePreservesDistinctKeys | src/utils/userStorage.js:26-29 | when usernames and emails are pairwise distinct and neither new value is taken, they stay distinct after saving |
| AuthSlice.InitialState | src/store/slices/authSlice.js:64-69 | `isAuthenticated` holds iff a non-empty token is stored, and then the token is that string; the user is whatever record is stored; not loading and no error |
| AuthSlice.SessionSurvivesReload | src/store/slices/authSlice.js:64-69 | the initial state reads back what a successful login or registration wrote (lines 18-19 and 52-53): rehydrating the slice from storage on reload gives back exactly the same state: user, token, `isAuthenticated`, not loading, no error |
| AuthSlice.Reduce | src/store/slices/authSlice.js:72-122 | only logout touches storage, removing exactly `token` and `user`, and it clears user, token, session flag and error; pending sets loading and clears error; fulfilled installs the payload and its token as an authenticated session; rejected clears the session flag and records the message but keeps user and token; clearError and setError change only `error` |
| AuthSlice.LogoutIdempotent | src/store/slices/authSlice.js:72-79 | logging out twice gives the same state and storage as logging out once |
| AuthSlice.FlowsAgree | src/store/slices/authSlice.js:90-122 | the login and registration settlements are the same transitions |
| AuthSlice.MakeToken | src/store/slices/authSlice.js:15 | the token is `local-jwt-token-` followed by the canonical decimal rendering of the timestamp: digits that denote it, with no leading zero unless the timestamp is 0 |
| AuthSlice.MakeTokenInjective | src/store/slices/authSlice.js:15 | tokens made at different instants differ |
| AuthSlice.StoreSession | src/store/slices/authSlice.js:18-19 | after a successful login or registration, `token` holds the new token and `user` the session record; every other key, and so the directory, is unchanged |
| AuthSlice.LoginUser | src/store/slices/authSlice.js:6-30 | fulfils iff the directory holds a user with exactly this username and password; then the session is the first such user plus the new token, and `token` and `user` are written; otherwise it rejects with `Invalid username or password` and storage is unchanged |
| AuthSlice.RegisterUser | src/store/slices/authSlice.js:32-60 | rejects with `Username or email already exists` iff the username or the email collides, leaving storage unchanged; otherwise it appends the new user, and the session is that user with the new token, written under `token` and `user`; no other storage key changes |
| AuthSlice.DispatchLogin | src/store/slices/authSlice.js:90-105 | after a dispatched login the visitor is authenticated iff the credentials are in the directory; on success the logged-in user, and the `user` storage entry, is the first directory record with those credentials carrying the new token, and `token` is stored, and no other storage key changes; on failure the error is set and user, token and storage are unchanged; never left loading |
| AuthSlice.DispatchRegister | src/store/slices/authSlice.js:107-122 | after a dispatched registration the visitor is authenticated iff neither username nor email was taken; then the directory gained the new user, the logged-in user and the `user` storage entry are that record with the new token, `token` is stored, and no other storage key changes; otherwise the error is set and storage is unchanged |
| AuthSlice.ConsistentFromAnonymous | src/store/slices/authSlice.js:64-122 | starting without a session and with the flag in step with the token, every dispatch and synchronous action keeps `isAuthenticated` equal to the presence of a token |
| AuthSlice.RejectedKeepsToken | src/store/slices/authSlice.js:101-105 | a rejected login or registration while a token is held leaves the flag out of step with the token |
| AuthSlice.RegisterThenLogin | src/store/slices/authSlice.js:6-60 | a successful registration authenticates, and logging in afterwards with the same username and password succeeds |
| AuthSlice.RegisterRejectsCollision | src/store/slices/authSlice.js:38-40 | after a successful registration, a second one with the same username or the same email collides |
| ProductsSlice.MergeById | src/store/slices/productsSlice.js:136-148 | the length and every id are unchanged; with no matching id the list is unchanged; otherwise the first matching entry becomes the old entry overlaid with the payload and every other entry is unchanged |
| ProductsSlice.RemoveId | src/store/slices/productsSlice.js:160-164 | no remaining entry has the id, every entry without it remains, and with the id absent the list is unchanged |
| ProductsSlice.Reduce | src/store/slices/productsSlice.js:93-171 | pending sets loading and clears the error; rejected stops loading and records the message; neither touches products or total; fetch replaces products and total wholesale; add puts the product at index 0 before the old list and makes total equal the new length; update keeps length, total and ids and is exactly the merge of the payload into the first product with its id; delete is exactly the removal of every product with the id, the rest in order, and sets total to the length; clearError changes only `error` |
| ProductsSlice.FetchProducts | src/store/slices/productsSlice.js:5-15 | fulfils with the response body iff the request succeeded, else rejects with the server message or `Failed to fetch products` |
| ProductsSlice.AddProduct | src/store/slices/productsSlice.js:18-42 | on success the payload has the generated id, `isLocal` true, an empty thumbnail and an empty image list, whatever the response said; every other field is the response's; on failure it rejects with the server message or `Failed to add product` |
| ProductsSlice.UpdateProduct | src/store/slices/productsSlice.js:45-66 | on success the payload has the requested numeric id and `isUpdated` true, and every other field is the response's; on failure it rejects with the server message or `Failed to update product` |
| ProductsSlice.DeleteProduct | src/store/slices/productsSlice.js:69-82 | fulfils with the requested id iff the request succeeded, else rejects with the server message or `Failed to delete product` |
| ProductsSlice.Dispatch | src/store/slices/productsSlice.js:97-171 | a dispatched request never leaves the store loading; a failure sets an error and keeps products and total; a successful fetch installs the server's page and total; a successful add puts the echoed product, with the clock-reading id, `isLocal`, an empty `thumbnail` and empty `images` overriding it, in front of the old list; a successful add or delete makes total equal the length; an update keeps length and total; a successful update merges the response with the numeric id and `isUpdated` into the first product with that id; a successful delete removes every product with the id and keeps the rest in order |
| ProductsProperties.FetchIdempotent | src/store/slices/productsSlice.js:100-113 | repeating a fetch with the same answer, successful or failed, changes nothing further |
| ProductsProperties.FetchForgetsHistory | src/store/slices/productsSlice.js:104-107 | a successful fetch leaves the same state whatever the store held before |
| ProductsProperties.FetchReplacesWholesale | src/store/slices/productsSlice.js:104-107 | a successful fetch of a two-product page reported as part of ten installs exactly that page and total, whatever the store held before, so total may differ from the length |
| ProductsProperties.DeleteUndoesAdd | src/store/slices/productsSlice.js:120-164 | deleting a freshly added product, whose id no listed product has, restores the previous list, with total equal to its length |
| ProductsProperties.MergeByIdIdempotent | src/store/slices/productsSlice.js:138-146 | merging the same payload into the list twice gives the same list as merging it once |
| ProductsProperties.UpdateIdempotent | src/store/slices/productsSlice.js:136-148 | applying the same update result twice equals applying it once |
| ProductsProperties.UpdateKeepsOmittedFields | src/store/slices/productsSlice.js:45-148 | after a successful update, the first product with the requested id has every field the response sent and `isUpdated` true, keeps every field the response omitted, and every other product is unchanged |
| ProductsProperties.UpdateMergesNotReplaces | src/store/slices/productsSlice.js:45-148 | for any state whose list is exactly `[{id: 1, title: "A", stock: 5}]`, updating id 1 from a response holding only `title: "B"` yields `{id: 1, title: "B", stock: 5, isUpdated: true}` |
| ProductsProperties.DeleteKeepsIdsDistinct | src/store/slices/productsSlice.js:160-164 | a delete, successful or not, keeps ids pairwise distinct and below any bound they were below |
| ProductsProperties.DispatchKeepsIdsDistinct | src/store/slices/productsSlice.js:26-164 | one add, update, delete or failed fetch keeps ids pairwise distinct when an add's clock reading is above every numeric id listed |
| ProductsProperties.RunKeepsIdsDistinct | src/store/slices/productsSlice.js:26-33 | over any run of adds, updates, deletes and failed fetches with fresh, increasing clock readings, ids stay pairwise distinct, even though the server answers every create with the same id |
| ProductsProperties.RunKeepsTotal | src/store/slices/productsSlice.js:104-164 | when total equals the length before a run of adds, updates, deletes and failed fetches, it still does after it, whether each request succeeds or fails |
| ProductsProperties.FromInitial | src/store/slices/productsSlice.js:86-164 | from the initial empty catalogue, any run of adds, updates, deletes and failed fetches whose adds carry increasing clock readings keeps ids unique and total equal to the length |
| Routes.ProtectedRoute | src/App.jsx:13-16 | renders the child iff authenticated, and otherwise redirects to `/login` |
| Routes.Route | src/App.jsx:27-55 | the three product locations render iff authenticated and otherwise redirect to `/login`; an authenticated visitor gets the product list at `/products`, the empty form at `/products/add` and the form for that id at `/products/edit/:id`; `/login` redirects to `/products` when authenticated and otherwise shows the login page; `/` always redirects to `/products`; every other location, `/register` included, matches nothing |
| Routes.AppContent | src/App.jsx:19-60 | the navigation bar is shown iff the visitor is authenticated, so it never appears above the login page and always appears above a rendered product page |
| Routes.RedirectsSettle | src/App.jsx:27-55 | from any location, at most two redirects reach a page or no match, so there is no redirect loop |
| Routes.GateHolds | src/App.jsx:13-55 | however many redirects are followed, an anonymous visitor never reaches a product page and an authenticated one never reaches the login page |

## Left out

- HTTP calls: each response is an input, `Ok(body)` or `Failed(message)`. Timeouts, retries and transport errors are the client library's concern.
- JSON encoding and decoding: storage entries hold decoded values.
- Settlement order of overlapping thunks: each dispatch is atomic and runs to settlement before the next. The race between two in-flight fetches is therefore not modelled.
- `console.log`, `console.warn` and `console.error` calls: they have no effect on state.
- The UI components (`ProductForm.jsx`, `ProductList.jsx`, `SimpleProductForm.jsx`, `TestAdd.jsx`, `Login.jsx`, `Navbar.jsx`) are rendering and event wiring. Their `parseFloat` and `parseInt` of form fields is number parsing.
- Prices and other decimals are opaque values (`Value.Opaque`).
- `parseInt(id)` in the update and delete thunks: ids are taken to be integers already, as the callers pass them. Non-numeric ids, and the `NaN` they would give, are not modelled.
- The `catch` branches of the login and registration thunks (`Login failed`, or the exception's message with `Registration failed` as fallback) are not modelled. They fire when storage throws, for example on a full quota. They also fire when `getUsers` throws: `JSON.parse` fails on a malformed `registeredUsers` string, and `find` or `some` fails on a parsed value that is not an array.
- Null versus undefined: both are `None`. `state.token = payload.token` on a payload without a token therefore reads as no token.
- `setError` carries a string message. Other payload types are not modelled.
- A fetch response whose body lacks `products` makes the reducer throw. Only well-formed list bodies (`Listing`) are modelled.
- `===` on objects and arrays is reference equality. The model compares values structurally, and the code compares only numeric ids and strings.
- Router path normalisation and case-insensitive matching: locations are given as already-normalised segment lists, compared exactly.
- UserStorage.GetUsers: a stored entry of a shape the code never writes under `registeredUsers` reads as the empty directory, because JSON parsing is abstracted. For such an entry the code would either throw or return the parsed value. When it throws, the model departs from the code in two ways. `AuthSlice.LoginUser` rejects with `Invalid username or password`, where the code rejects with `Login failed`. `AuthSlice.RegisterUser` fulfils and overwrites the entry with a one-user directory, where the code rejects with the exception's message.
- AuthSlice.InitialState: a `token` entry that is not a plain string reads as no token, and a `user` entry that is not a record reads as no user, for the same reason.
- ProductsProperties.RunKeepsIdsDistinct: assumes the adds' clock readings are fresh and increasing, and that no fetch succeeds. The code itself does not guarantee unique ids: two adds in the same millisecond collide, and a fetched page's ids are the server's.

=== FILE: async.dfy ===
/**
 The outcomes of the application's asynchronous actions. A network call is
 not performed: its result is an input. A thunk settles either fulfilled with
 a payload or rejected with a message (`rejectWithValue`).
 */
module Async {
  import opened Wrappers

  /** What the HTTP client returned: the response body, or a failure whose
      body may carry a `message` (`error.response?.data?.message`). */
  datatype Response<+T> = Ok(data: T) | Failed(serverMessage: Option<string>)

  /** How a thunk settled. */
  datatype Settled<+T> = Fulfilled(value: T) | Rejected(message: string)

  /** `serverMessage || fallback`: an absent or empty message is falsy. */
  function RejectMessage(serverMessage: Option<string>, fallback: string): (m: string)
    ensures serverMessage.Some? && serverMessage.value != "" ==> m == serverMessage.value
    ensures serverMessage.None? || serverMessage.value == "" ==> m == fallback
  {
    match serverMessage
    case Some(s) => if s != "" then s else fallback
    case None => fallback
  }
}

=== FILE: auth_slice.dfy ===
/**
 The session store (`src/store/slices/authSlice.js`): a reducer over the
 authentication state, the decision logic of the `loginUser` and
 `registerUser` thunks against the local user directory, and the storage
 writes both make. `Date.now()` and `new Date().toISOString()` are inputs.
 */
module AuthSlice {
  import opened Wrappers
  import opened Records
  import opened Storage
  import opened UserStorage
  import opened Digits
  import opened Async

  /** The slice state. `user` is the logged-in record (with its `token`
      field), `token` is the session token as read from storage or from the
      login payload. */
  datatype AuthState = AuthState(
    user: Option<Record>,
    token: Option<Value>,
    isLoading: bool,
    error: Option<string>,
    isAuthenticated: bool)

  /** The slice state together with the browser storage the reducer and
      thunks write. */
  datatype Snapshot = Snapshot(state: AuthState, store: Store)

  const TokenPrefix: string := "local-jwt-token-"
  const InvalidCredentials: string := "Invalid username or password"
  const DuplicateUser: string := "Username or email already exists"

  /** `localStorage.getItem('token') || null`: the stored token, unless it
      is absent or the empty string. */
  function StoredToken(st: Store): Option<string>
  {
    match GetItem(st, TokenKey)
    case Some(Raw(t)) => if t == "" then None else Some(t)
    case _ => None
  }

  /** The state the slice starts in, rehydrated from storage without any
      check against the directory. */
  function InitialState(st: Store): (s: AuthState)
    ensures s.isAuthenticated <==> s.token.Some?
    ensures s.isAuthenticated <==> TokenKey in st && st[TokenKey].Raw? && st[TokenKey].text != ""
    ensures s.isAuthenticated ==> s.token == Some(Text(st[TokenKey].text))
    ensures s.user.Some? <==> UserKey in st && st[UserKey].UserJson?
    ensures s.user.Some? ==> s.user.value == st[UserKey].user
    ensures !s.isLoading && s.error.None?
  {
    var token := StoredToken(st);
    AuthState(
      user := match GetItem(st, UserKey) case Some(UserJson(u)) => Some(u) case _ => None,
      token := match token case Some(t) => Some(Text(t)) case None => None,
      isLoading := false,
      error := None,
      isAuthenticated := token.Some?)
  }

  /** The two thunks whose settlements the reducer handles identically. */
  datatype Flow = Login | Register

  datatype AuthAction =
    | ThunkPending(flow: Flow)
    | ThunkFulfilled(flow: Flow, payload: Record)
    | ThunkRejected(flow: Flow, message: string)
    | Logout
    | ClearError
    | SetError(message: string)

  /** Everything but `error` is the same in both states. */
  predicate SameButError(a: AuthState, b: AuthState)
  {
    a.user == b.user && a.token == b.token && a.isLoading == b.isLoading
    && a.isAuthenticated == b.isAuthenticated
  }

  /** The slice reducer. Only `logout` touches storage: it removes the
      `token` and `user` keys. */
  function Reduce(w: Snapshot, a: AuthAction): (r: Snapshot)
    ensures !a.Logout? ==> r.store == w.store
    ensures a.Logout? ==> (r.store.Keys == w.store.Keys - {TokenKey, UserKey}
                           && forall k :: k in r.store ==> r.store[k] == w.store[k])
    ensures a.Logout? ==> (r.state.user.None? && r.state.token.None?
                           && !r.state.isAuthenticated && r.state.error.None?
                           && r.state.isLoading == w.state.isLoading)
    ensures a.ThunkPending? ==> (r.state.isLoading && r.state.error.None?
                                 && r.state.user == w.state.user && r.state.token == w.state.token
                                 && r.state.isAuthenticated == w.state.isAuthenticated)
    ensures a.ThunkFulfilled? ==> (r.state.user == Some(a.payload)
                                   && r.state.token == Get(a.payload, "token")
                                   && r.state.isAuthenticated && r.state.error.None? && !r.state.isLoading)
    ensures a.ThunkRejected? ==> (!r.state.isAuthenticated && r.state.error == Some(a.message)
                                  && !r.state.isLoading && r.state.user == w.state.user && r.state.token == w.state.token)
    ensures a.ClearError? ==> r.state.error.None? && SameButError(r.state, w.state)
    ensures a.SetError? ==> r.state.error == Some(a.message) && SameButError(r.state, w.state)
  {
    var s := w.state;
    match a
    case ThunkPending(_) =>
      Snapshot(s.(isLoading := true, error := None), w.store)
    case ThunkFulfilled(_, payload) =>
      Snapshot(s.(isLoading := false, user := Some(payload), token := Get(payload, "token"),
                  isAuthenticated := true, error := None), w.store)
    case ThunkRejected(_, message) =>
      Snapshot(s.(isLoading := false, error := Some(message), isAuthenticated := false), w.store)
    case Logout =>
      Snapshot(s.(user := None, token := None, isAuthenticated := false, error := None),
               RemoveItem(RemoveItem(w.store, TokenKey), UserKey))
    case ClearError =>
      Snapshot(s.(error := None), w.store)
    case SetError(message) =>
      Snapshot(s.(error := Some(message)), w.store)
  }

  /** Logging out twice leaves the same state and storage as logging out once. */
  lemma LogoutIdempotent(w: Snapshot)
    ensures Reduce(Reduce(w, Logout), Logout) == Reduce(w, Logout)
  {
  }

  /** The login and registration settlements are one and the same transition. */
  lemma FlowsAgree(w: Snapshot, payload: Record, message: string)
    ensures Reduce(w, ThunkFulfilled(Login, payload)) == Reduce(w, ThunkFulfilled(Register, payload))
    ensures Reduce(w, ThunkRejected(Login, message)) == Reduce(w, ThunkRejected(Register, message))
    ensures Reduce(w, ThunkPending(Login)) == Reduce(w, ThunkPending(Register))
  {
  }

  /** `'local-jwt-token-' + Date.now()`. */
  function MakeToken(now: nat): (t: string)
    ensures |t| > |TokenPrefix| && t[..|TokenPrefix|] == TokenPrefix
    ensures AllDigits(t[|TokenPrefix|..]) && DigitsValue(t[|TokenPrefix|..]) == now
    ensures t[|TokenPrefix|] != '0' || t == TokenPrefix + "0"
  {
    var t := TokenPrefix + NatToString(now);
    assert t[|TokenPrefix|..] == NatToString(now);
    NatToStringRoundTrip(now);
    t
  }

  /** Logins at distinct instants receive distinct tokens. */
  lemma MakeTokenInjective(a: nat, b: nat)
    ensures MakeToken(a) == MakeToken(b) ==> a == b
  {
  }

  /** The record a successful login or registration returns and stores:
      the directory record with a fresh `token` field. */
  function WithToken(user: Record, now: nat): Record
  {
    Overlay(user, map["token" := Text(MakeToken(now))])
  }

  /** Storage after a successful login or registration: `token` and `user` written. */
  function StoreSession(st: Store, session: Record, now: nat): (r: Store)
    ensures GetItem(r, TokenKey) == Some(Raw(MakeToken(now)))
    ensures GetItem(r, UserKey) == Some(UserJson(session))
    ensures forall k :: k != TokenKey && k != UserKey ==> GetItem(r, k) == GetItem(st, k)
    ensures GetUsers(r) == GetUsers(st)
  {
    SetItem(SetItem(st, TokenKey, Raw(MakeToken(now))), UserKey, UserJson(session))
  }

  /** A thunk's settlement together with the storage it leaves behind. */
  datatype ThunkRun = ThunkRun(settled: Settled<Record>, store: Store)

  /** `loginUser`: succeeds iff some registered user has exactly this
      username and password; then the session is the first such user with a
      new token, written to storage. Otherwise it rejects and writes nothing. */
  function LoginUser(st: Store, username: string, password: string, now: nat): (run: ThunkRun)
    ensures run.settled.Fulfilled? <==>
      exists i :: 0 <= i < |GetUsers(st)| && HasCredentials(GetUsers(st)[i], Some(Text(username)), Some(Text(password)))
    ensures run.settled.Rejected? ==> run.settled.message == InvalidCredentials && run.store == st
    ensures run.settled.Fulfilled? ==>
      var session := run.settled.value;
      && Get(session, "token") == Some(Text(MakeToken(now)))
      && Get(session, "username") == Some(Text(username))
      && Get(session, "password") == Some(Text(password))
      && session == WithToken(FindUser(st, Some(Text(username)), Some(Text(password))).value, now)
      && run.store == StoreSession(st, session, now)
  {
    match FindUser(st, Some(Text(username)), Some(Text(password)))
    case Some(found) =>
      var session := WithToken(found, now);
      ThunkRun(Settled.Fulfilled(session), StoreSession(st, session, now))
    case None =>
      ThunkRun(Settled.Rejected(InvalidCredentials), st)
  }

  /** `registerUser`: rejects when the username OR the email is taken,
      leaving storage as it was; otherwise appends the user to the directory
      and logs them in. `idStamp` and `tokenStamp` are the two `Date.now()`
      readings, `createdAt` the ISO timestamp. */
  function RegisterUser(st: Store, userData: Record, idStamp: nat, createdAt: string, tokenStamp: nat): (run: ThunkRun)
    ensures run.settled.Rejected? <==> UserExists(st, Get(userData, "username"), Get(userData, "email"))
    ensures run.settled.Rejected? ==> run.settled.message == DuplicateUser && run.store == st
    ensures run.settled.Fulfilled? ==>
      var session := run.settled.value;
      var user := NewUser(userData, idStamp, createdAt);
      && GetUsers(run.store) == GetUsers(st) + [user]
      && session == WithToken(user, tokenStamp)
      && GetItem(run.store, TokenKey) == Some(Raw(MakeToken(tokenStamp)))
      && GetItem(run.store, UserKey) == Some(UserJson(session))
    ensures run.settled.Fulfilled? ==>
      forall k :: k != UsersKey && k != TokenKey && k != UserKey ==> GetItem(run.store, k) == GetItem(st, k)
  {
    if UserExists(st, Get(userData, "username"), Get(userData, "email")) then
      ThunkRun(Settled.Rejected(DuplicateUser), st)
    else
      var saved := SaveUser(st, userData, idStamp, createdAt);
      var session := WithToken(saved.user, tokenStamp);
      ThunkRun(Settled.Fulfilled(session), StoreSession(saved.store, session, tokenStamp))
  }

  /** The action a thunk's settlement dispatches. */
  function Settle(flow: Flow, settled: Settled<Record>): AuthAction
  {
    match settled
    case Fulfilled(p) => ThunkFulfilled(flow, p)
    case Rejected(m) => ThunkRejected(flow, m)
  }

  /** Dispatching `loginUser`: pending, the thunk against storage, then its settlement. */
  function DispatchLogin(w: Snapshot, username: string, password: string, now: nat): (r: Snapshot)
    ensures r.state.isAuthenticated <==> FindUser(w.store, Some(Text(username)), Some(Text(password))).Some?
    ensures !r.state.isAuthenticated ==> (r.state.error == Some(InvalidCredentials)
                                          && r.store == w.store && r.state.user == w.state.user && r.state.token == w.state.token)
    ensures r.state.isAuthenticated ==> (r.state.error.None?
                                         && r.state.token == Some(Text(MakeToken(now)))
                                         && GetItem(r.store, TokenKey) == Some(Raw(MakeToken(now))))
    ensures r.state.isAuthenticated ==>
      var found := FindUser(w.store, Some(Text(username)), Some(Text(password)));
      && found.Some?
      && r.state.user == Some(WithToken(found.value, now))
      && GetItem(r.store, UserKey) == Some(UserJson(WithToken(found.value, now)))
    ensures r.state.isAuthenticated ==>
      forall k :: k != TokenKey && k != UserKey ==> GetItem(r.store, k) == GetItem(w.store, k)
    ensures !r.state.isLoading
  {
    var w1 := Reduce(w, ThunkPending(Login));
    var run := LoginUser(w1.store, username, password, now);
    Reduce(Snapshot(w1.state, run.store), Settle(Login, run.settled))
  }

  /** Dispatching `registerUser`. */
  function DispatchRegister(w: Snapshot, userData: Record, idStamp: nat, createdAt: string, tokenStamp: nat): (r: Snapshot)
    ensures r.state.isAuthenticated <==> !UserExists(w.store, Get(userData, "username"), Get(userData, "email"))
    ensures !r.state.isAuthenticated ==> (r.state.error == Some(DuplicateUser)
                                          && r.store == w.store && r.state.user == w.state.user && r.state.token == w.state.token)
    ensures r.state.isAuthenticated ==> (r.state.error.None?
                                         && r.state.token == Some(Text(MakeToken(tokenStamp)))
                                         && GetUsers(r.store) == GetUsers(w.store) + [NewUser(userData, idStamp, createdAt)])
    ensures r.state.isAuthenticated ==>
      && r.state.user == Some(WithToken(NewUser(userData, idStamp, createdAt), tokenStamp))
      && GetItem(r.store, UserKey) == Some(UserJson(r.state.user.value))
      && GetItem(r.store, TokenKey) == Some(Raw(MakeToken(tokenStamp)))
    ensures r.state.isAuthenticated ==>
      forall k :: k != UsersKey && k != TokenKey && k != UserKey ==> GetItem(r.store, k) == GetItem(w.store, k)
    ensures !r.state.isLoading
  {
    var w1 := Reduce(w, ThunkPending(Register));
    var run := RegisterUser(w1.store, userData, idStamp, createdAt, tokenStamp);
    Reduce(Snapshot(w1.state, run.store), Settle(Register, run.settled))
  }

  /** A session survives a page reload: after a successful login or
      registration, rehydrating the slice from storage gives back the same
      user, token and flag, with no error and nothing loading. */
  lemma SessionSurvivesReload(w: Snapshot, username: string, password: string, userData: Record,
                              idStamp: nat, createdAt: string, now: nat)
    ensures var r := DispatchLogin(w, username, password, now);
      r.state.isAuthenticated ==> InitialState(r.store) == r.state
    ensures var r := DispatchRegister(w, userData, idStamp, createdAt, now);
      r.state.isAuthenticated ==> InitialState(r.store) == r.state
  {
  }

  /** `isAuthenticated` agrees with the presence of a token. */
  predicate Consistent(s: AuthState)
  {
    s.isAuthenticated <==> s.token.Some?
  }

  /** From a consistent state without a session, every dispatch and every
      synchronous action keeps `isAuthenticated` in step with the token. */
  lemma ConsistentFromAnonymous(w: Snapshot, username: string, password: string, userData: Record,
                                idStamp: nat, createdAt: string, now: nat, message: string)
    requires Consistent(w.state) && !w.state.isAuthenticated
    ensures Consistent(DispatchLogin(w, username, password, now).state)
    ensures Consistent(DispatchRegister(w, userData, idStamp, createdAt, now).state)
    ensures Consistent(Reduce(w, Logout).state)
    ensures Consistent(Reduce(w, ClearError).state)
    ensures Consistent(Reduce(w, SetError(message)).state)
  {
  }

  /** A rejected login or registration leaves the token in place but
      clears `isAuthenticated`, so a state holding a token falls out of step. */
  lemma RejectedKeepsToken(w: Snapshot, flow: Flow, message: string)
    requires w.state.token.Some?
    ensures !Consistent(Reduce(w, ThunkRejected(flow, message)).state)
  {
  }

  /** Once a user registered, the same username and password log in. */
  lemma {:induction false} RegisterThenLogin(w: Snapshot, username: string, password: string, userData: Record,
                                             idStamp: nat, createdAt: string, tokenStamp: nat, now: nat)
    requires Get(userData, "username") == Some(Text(username))
    requires Get(userData, "password") == Some(Text(password))
    requires !UserExists(w.store, Get(userData, "username"), Get(userData, "email"))
    ensures var r := DispatchRegister(w, userData, idStamp, createdAt, tokenStamp);
      r.state.isAuthenticated && DispatchLogin(r, username, password, now).state.isAuthenticated
  {
    var r := DispatchRegister(w, userData, idStamp, createdAt, tokenStamp);
    var users := GetUsers(r.store);
    var user := NewUser(userData, idStamp, createdAt);
    assert users[|users| - 1] == user;
    assert HasCredentials(user, Some(Text(username)), Some(Text(password)));
  }

  /** Once a user registered, registering again with the same username or
      with the same email is rejected. */
  lemma {:induction false} RegisterRejectsCollision(w: Snapshot, first: Record, second: Record,
                                                    idStamp: nat, createdAt: string, tokenStamp: nat)
    requires !UserExists(w.store, Get(first, "username"), Get(first, "email"))
    requires Get(second, "username") == Get(first, "username") || Get(second, "email") == Get(first, "email")
    ensures var r := DispatchRegister(w, first, idStamp, createdAt, tokenStamp);
      r.state.isAuthenticated && UserExists(r.store, Get(second, "username"), Get(second, "email"))
  {
    var r := DispatchRegister(w, first, idStamp, createdAt, tokenStamp);
    var users := GetUsers(r.store);
    var user := NewUser(first, idStamp, createdAt);
    assert users[|users| - 1] == user;
    assert Collides(user, Get(second, "username"), Get(second, "email"));
  }
}

=== FILE: digits.dfy ===
/**
 Decimal rendering of a non-negative integer, as JavaScript's string
 concatenation renders `Date.now()` (no sign, no leading zeros, no exponent
 for the millisecond timestamps involved).
 */
module Digits {

  predicate IsDigit(c: char)
  {
    '0' <= c <= '9'
  }

  predicate AllDigits(s: string)
  {
    forall i :: 0 <= i < |s| ==> IsDigit(s[i])
  }

  function DigitChar(d: nat): (c: char)
    requires d < 10
    ensures IsDigit(c) && c as int - '0' as int == d
  {
    ('0' as int + d) as char
  }

  /** `String(n)` for a non-negative integer. */
  function NatToString(n: nat): (s: string)
    ensures |s| > 0 && AllDigits(s)
    ensures n > 0 ==> s[0] != '0'
    ensures n == 0 ==> s == "0"
    decreases n
  {
    if n < 10 then [DigitChar(n)] else NatToString(n / 10) + [DigitChar(n % 10)]
  }

  /** The number a string of decimal digits denotes. */
  function DigitsValue(s: string): nat
    requires AllDigits(s)
    decreases |s|
  {
    if |s| == 0 then 0
    else DigitsValue(s[..|s| - 1]) * 10 + (s[|s| - 1] as int - '0' as int)
  }

  /** Reading back a rendered number gives the number. */
  lemma {:induction false} NatToStringRoundTrip(n: nat)
    ensures DigitsValue(NatToString(n)) == n
    decreases n
  {
    var s := NatToString(n);
    if n >= 10 {
      NatToStringRoundTrip(n / 10);
      assert s[..|s| - 1] == NatToString(n / 10);
    }
  }
}

=== FILE: products_properties.dfy ===
/**
 Properties of the catalog store that relate several dispatches: add and
 delete undo each other, update is idempotent, locally generated ids stay
 unique, and `total` stays equal to the list's length under add / update /
 delete.
 */
module ProductsProperties {
  import opened Wrappers
  import opened Records
  import opened Async
  import opened Seqs
  import opened ProductsSlice

  /** A successful add puts its payload, which carries the clock reading
      as id, in front of the old list. */
  lemma AddPutsFirst(s: ProductsState, data: Record, now: nat)
    ensures var r := Dispatch(s, AddRequest(Ok(data), now));
      r.products == [Overlay(data, AddOverrides(now))] + s.products
  {
    assert AddProduct(Ok(data), now) == Fulfilled(Overlay(data, AddOverrides(now)));
    var s1 := Reduce(s, OpPending(Add));
    assert s1.products == s.products;
    assert Dispatch(s, AddRequest(Ok(data), now)) == Reduce(s1, AddFulfilled(Overlay(data, AddOverrides(now))));
  }

  /** A successful delete's list is the reducer's filter of the old list. */
  lemma DeleteRemovesId(s: ProductsState, id: int, deleted: Record)
    ensures var r := Dispatch(s, DeleteRequest(id, Ok(deleted)));
      r.products == Filter(s.products, IdIsNot(id)) && r.total == |r.products|
  {
    assert DeleteProduct(id, Ok(deleted)) == Fulfilled(id);
    var s1 := Reduce(s, OpPending(Delete));
    assert s1.products == s.products;
    assert Dispatch(s, DeleteRequest(id, Ok(deleted))) == Reduce(s1, DeleteFulfilled(id));
  }

  /** Filtering out an id that only the front product carries leaves the rest. */
  lemma {:induction false} FilterDropsFront(p: Record, ps: seq<Record>, id: int)
    requires HasId(p, Some(Num(id)))
    requires forall j :: 0 <= j < |ps| ==> !HasId(ps[j], Some(Num(id)))
    ensures Filter([p] + ps, IdIsNot(id)) == ps
  {
    FilterConcat([p], ps, IdIsNot(id));
    assert Filter([p], IdIsNot(id)) == [];
  }

  /** Deleting a freshly added product gives back the list as it was
      before the add. */
  lemma {:induction false} DeleteUndoesAdd(s: ProductsState, data: Record, now: nat, deleted: Record)
    requires forall j :: 0 <= j < |s.products| ==> !HasId(s.products[j], Some(Num(now)))
    ensures var added := Dispatch(s, AddRequest(Ok(data), now));
      var r := Dispatch(added, DeleteRequest(now, Ok(deleted)));
      r.products == s.products && r.total == |s.products|
  {
    var added := Dispatch(s, AddRequest(Ok(data), now));
    var p := Overlay(data, AddOverrides(now));
    AddPutsFirst(s, data, now);
    DeleteRemovesId(added, now, deleted);
    FilterDropsFront(p, s.products, now);
  }

  /** Merging the same payload twice gives the list of merging it once:
      the first match is the same product both times, and overlaying a
      record with the same fields again changes nothing. */
  lemma MergeByIdIdempotent(ps: seq<Record>, payload: Record)
    ensures MergeById(MergeById(ps, payload), payload) == MergeById(ps, payload)
  {
    var once := MergeById(ps, payload);
    var id := Get(payload, "id");
    FirstIndexAgrees(ps, once, IdIs(id));
    match FirstIndex(ps, IdIs(id))
    case None =>
    case Some(i) =>
      OverlayIdempotent(ps[i], payload);
  }

  /** Applying the same update result twice has the effect of applying it once. */
  lemma UpdateIdempotent(s: ProductsState, payload: Record)
    ensures var once := Reduce(s, UpdateFulfilled(payload));
      Reduce(once, UpdateFulfilled(payload)) == once
  {
    MergeByIdIdempotent(s.products, payload);
  }

  /** A successful update's list is the reducer's merge of the thunk's
      payload into the old list. */
  lemma UpdateMergesPayload(s: ProductsState, id: int, data: Record)
    ensures var r := Dispatch(s, UpdateRequest(id, Ok(data)));
      r.products == MergeById(s.products, Overlay(data, UpdateOverrides(id)))
  {
    var payload := Overlay(data, UpdateOverrides(id));
    assert UpdateProduct(id, Ok(data)) == Fulfilled(payload);
    var s1 := Reduce(s, OpPending(Update));
    assert s1.products == s.products;
    assert Dispatch(s, UpdateRequest(id, Ok(data))) == Reduce(s1, UpdateFulfilled(payload));
  }

  /** Update merges rather than replaces: the first product with the
      requested id takes every field the response sent and is marked
      updated, keeps every field the response omitted, and no other
      product changes. */
  lemma UpdateKeepsOmittedFields(s: ProductsState, id: int, data: Record, i: nat)
    requires i < |s.products| && HasId(s.products[i], Some(Num(id)))
    requires forall j :: 0 <= j < i ==> !HasId(s.products[j], Some(Num(id)))
    ensures var r := Dispatch(s, UpdateRequest(id, Ok(data)));
      && |r.products| == |s.products|
      && Get(r.products[i], "isUpdated") == Some(Flag(true))
      && (forall k :: k in data && k != "id" && k != "isUpdated" ==> Get(r.products[i], k) == Get(data, k))
      && (forall k :: k !in data && k != "isUpdated" ==> Get(r.products[i], k) == Get(s.products[i], k))
      && forall j :: 0 <= j < |s.products| && j != i ==> r.products[j] == s.products[j]
  {
    var payload := Overlay(data, UpdateOverrides(id));
    UpdateMergesPayload(s, id, data);
    assert Get(payload, "id") == Some(Num(id));
    MergeAtFirstMatch(s.products, payload, i);
  }

  /** The merge step overlays the first product with the payload's id. */
  lemma MergeAtFirstMatch(ps: seq<Record>, payload: Record, i: nat)
    requires i < |ps| && HasId(ps[i], Get(payload, "id"))
    requires forall j :: 0 <= j < i ==> !HasId(ps[j], Get(payload, "id"))
    ensures MergeById(ps, payload) == ps[i := Overlay(ps[i], payload)]
  {
    assert FirstIndex(ps, IdIs(Get(payload, "id"))) == Some(i);
  }

  /** The merge step of the example below, on the list alone. */
  lemma MergeKeepsStock()
    ensures MergeById([map["id" := Num(1), "title" := Text("A"), "stock" := Num(5)]],
                      map["title" := Text("B"), "id" := Num(1), "isUpdated" := Flag(true)])
         == [map["id" := Num(1), "title" := Text("B"), "stock" := Num(5), "isUpdated" := Flag(true)]]
  {
    var before := map["id" := Num(1), "title" := Text("A"), "stock" := Num(5)];
    var payload := map["title" := Text("B"), "id" := Num(1), "isUpdated" := Flag(true)];
    assert FirstIndex([before], IdIs(Some(Num(1)))) == Some(0);
    assert Overlay(before, payload)
        == map["id" := Num(1), "title" := Text("B"), "stock" := Num(5), "isUpdated" := Flag(true)];
  }

  /** An update whose response omits `stock` keeps the stored `stock`: a
      product `{id: 1, title: "A", stock: 5}` updated from a response
      holding only `title: "B"` keeps `stock: 5`. */
  lemma UpdateMergesNotReplaces(s: ProductsState)
    requires s.products == [map["id" := Num(1), "title" := Text("A"), "stock" := Num(5)]]
    ensures var r := Dispatch(s, UpdateRequest(1, Ok(map["title" := Text("B")])));
      r.products == [map["id" := Num(1), "title" := Text("B"), "stock" := Num(5), "isUpdated" := Flag(true)]]
  {
    UpdateMergesPayload(s, 1, map["title" := Text("B")]);
    assert Overlay(map["title" := Text("B")], UpdateOverrides(1))
        == map["title" := Text("B"), "id" := Num(1), "isUpdated" := Flag(true)];
    MergeKeepsStock();
  }

  /** Fetching is idempotent: whatever the previous state, repeating the
      same fetch, with the same answer, changes nothing further. */
  lemma FetchIdempotent(s: ProductsState, listing: Response<Listing>)
    ensures var once := Dispatch(s, FetchRequest(listing));
      Dispatch(once, FetchRequest(listing)) == once
  {
  }

  /** A successful fetch forgets what the store held before: from any two
      states it leaves the same products, total, flag and error. */
  lemma FetchForgetsHistory(s: ProductsState, t: ProductsState, listing: Listing)
    ensures Dispatch(s, FetchRequest(Ok(listing))) == Dispatch(t, FetchRequest(Ok(listing)))
  {
  }

  /** A fetch installs the server's page and reported total as they came,
      whatever the store held: a page of two products reported as part of
      ten leaves `total` different from the list's length. */
  lemma FetchReplacesWholesale(s: ProductsState, p1: Record, p2: Record)
    ensures var r := Dispatch(s, FetchRequest(Ok(Listing([p1, p2], 10))));
      r.products == [p1, p2] && r.total == 10 && r.total != |r.products|
  {
  }

  /** No two products share an id. */
  ghost predicate DistinctIds(ps: seq<Record>)
  {
    DistinctBy(ps, IdOf)
  }

  /** The product's id is not a number at or above `bound`. */
  predicate IdBelow(p: Record, bound: int)
  {
    match Get(p, "id")
    case Some(Num(n)) => n < bound
    case _ => true
  }

  ghost predicate AllIdsBelow(ps: seq<Record>, bound: int)
  {
    forall j :: 0 <= j < |ps| ==> IdBelow(ps[j], bound)
  }

  /** The clock readings of the adds in `reqs` are at least `bound` and
      strictly increasing. */
  predicate FreshStamps(reqs: seq<Request>, bound: int)
    decreases |reqs|
  {
    if |reqs| == 0 then true
    else if reqs[0].AddRequest? then bound <= reqs[0].now && FreshStamps(reqs[1..], reqs[0].now + 1)
    else FreshStamps(reqs[1..], bound)
  }

  /** No fetch in `reqs` succeeds; a failed fetch leaves the list alone. */
  predicate NoSuccessfulFetch(reqs: seq<Request>)
  {
    forall j :: 0 <= j < |reqs| ==> !(reqs[j].FetchRequest? && Succeeds(reqs[j]))
  }

  /** Dropping the first request keeps the others free of successful fetches. */
  lemma NoSuccessfulFetchTail(reqs: seq<Request>)
    requires |reqs| > 0 && NoSuccessfulFetch(reqs)
    ensures NoSuccessfulFetch(reqs[1..])
  {
    forall j | 0 <= j < |reqs[1..]|
      ensures !(reqs[1..][j].FetchRequest? && Succeeds(reqs[1..][j]))
    {
      assert reqs[1..][j] == reqs[j + 1];
    }
  }

  /** Raising the bound keeps every id below it. */
  lemma RaiseBound(ps: seq<Record>, bound: int, higher: int)
    requires AllIdsBelow(ps, bound) && bound <= higher
    ensures AllIdsBelow(ps, higher)
  {
    forall j | 0 <= j < |ps|
      ensures IdBelow(ps[j], higher)
    {
      assert IdBelow(ps[j], bound);
    }
  }

  /** Putting a product whose id is a fresh clock reading in front keeps
      ids distinct. */
  lemma PrependFreshKeepsDistinct(p: Record, ps: seq<Record>, now: int, bound: int)
    requires DistinctIds(ps) && AllIdsBelow(ps, bound) && bound <= now
    requires HasId(p, Some(Num(now)))
    ensures DistinctIds([p] + ps) && AllIdsBelow([p] + ps, now + 1)
  {
    var r := [p] + ps;
    forall i, j | 0 <= i < j < |r|
      ensures IdOf(r[i]) != IdOf(r[j])
    {
      assert r[j] == ps[j - 1] && IdBelow(ps[j - 1], bound);
      if i > 0 {
        assert r[i] == ps[i - 1];
      }
    }
    RaiseBound(ps, bound, now + 1);
    forall j | 0 <= j < |r|
      ensures IdBelow(r[j], now + 1)
    {
      if j > 0 {
        assert r[j] == ps[j - 1];
      }
    }
  }

  /** Two lists of the same length with the same ids at every index agree
      on distinctness and bounds. */
  lemma SameIdsKeepDistinct(ps: seq<Record>, qs: seq<Record>, bound: int)
    requires |qs| == |ps| && forall j :: 0 <= j < |ps| ==> IdOf(qs[j]) == IdOf(ps[j])
    requires DistinctIds(ps) && AllIdsBelow(ps, bound)
    ensures DistinctIds(qs) && AllIdsBelow(qs, bound)
  {
    forall j | 0 <= j < |qs|
      ensures IdBelow(qs[j], bound)
    {
      assert IdBelow(ps[j], bound);
    }
  }

  /** Filtering keeps every id below the bound. */
  lemma FilterKeepsBelow(ps: seq<Record>, id: int, bound: int)
    requires AllIdsBelow(ps, bound)
    ensures AllIdsBelow(Filter(ps, IdIsNot(id)), bound)
  {
    var r := Filter(ps, IdIsNot(id));
    forall j | 0 <= j < |r|
      ensures IdBelow(r[j], bound)
    {
      var m :| 0 <= m < |ps| && ps[m] == r[j];
    }
  }

  /** A successful or failed delete keeps ids distinct and below the bound:
      the survivors are a sub-list of the old list. */
  lemma DeleteKeepsIdsDistinct(s: ProductsState, id: int, response: Response<Record>, bound: int)
    requires DistinctIds(s.products) && AllIdsBelow(s.products, bound)
    ensures var r := Dispatch(s, DeleteRequest(id, response));
      DistinctIds(r.products) && AllIdsBelow(r.products, bound)
  {
    if response.Ok? {
      DeleteRemovesId(s, id, response.data);
      FilterKeepsDistinct(s.products, IdIsNot(id), IdOf);
      FilterKeepsBelow(s.products, id, bound);
    }
  }

  /** One add, update, delete or failed fetch keeps ids distinct, provided
      an add's clock reading is above every numeric id in the list. */
  lemma DispatchKeepsIdsDistinct(s: ProductsState, req: Request, bound: int)
    requires DistinctIds(s.products) && AllIdsBelow(s.products, bound)
    requires !(req.FetchRequest? && Succeeds(req))
    requires req.AddRequest? ==> bound <= req.now
    ensures var r := Dispatch(s, req);
      DistinctIds(r.products) && AllIdsBelow(r.products, if req.AddRequest? then req.now + 1 else bound)
  {
    match req
    case FetchRequest(_) =>
    case AddRequest(response, now) =>
      if response.Ok? {
        AddPutsFirst(s, response.data, now);
        PrependFreshKeepsDistinct(Overlay(response.data, AddOverrides(now)), s.products, now, bound);
      } else {
        RaiseBound(s.products, bound, now + 1);
      }
    case UpdateRequest(id, response) =>
      if response.Ok? {
        UpdateMergesPayload(s, id, response.data);
        SameIdsKeepDistinct(s.products, Dispatch(s, req).products, bound);
      }
    case DeleteRequest(id, response) =>
      DeleteKeepsIdsDistinct(s, id, response, bound);
  }

  /** Uniqueness of ids across any run of adds, updates, deletes and failed
      fetches, even though the server answers every add with the same id: it
      holds as long as the clock readings of the adds are fresh (above every
      numeric id already listed, and strictly increasing). A successful fetch
      adopts the server's list and is excluded. */
  lemma {:induction false} RunKeepsIdsDistinct(s: ProductsState, reqs: seq<Request>, bound: int)
    requires DistinctIds(s.products) && AllIdsBelow(s.products, bound)
    requires NoSuccessfulFetch(reqs) && FreshStamps(reqs, bound)
    ensures DistinctIds(Run(s, reqs).products)
    decreases |reqs|
  {
    if |reqs| > 0 {
      var req := reqs[0];
      DispatchKeepsIdsDistinct(s, req, bound);
      var next := if req.AddRequest? then req.now + 1 else bound;
      NoSuccessfulFetchTail(reqs);
      RunKeepsIdsDistinct(Dispatch(s, req), reqs[1..], next);
    }
  }

  /** `total` equals the list's length before a run of adds, updates,
      deletes and failed fetches, whether they succeed or fail, and still
      does after it. */
  lemma {:induction false} RunKeepsTotal(s: ProductsState, reqs: seq<Request>)
    requires s.total == |s.products|
    requires NoSuccessfulFetch(reqs)
    ensures Run(s, reqs).total == |Run(s, reqs).products|
    decreases |reqs|
  {
    if |reqs| > 0 {
      NoSuccessfulFetchTail(reqs);
      RunKeepsTotal(Dispatch(s, reqs[0]), reqs[1..]);
    }
  }

  /** Starting from the slice's initial state, the empty list, any run of
      adds, updates, deletes and failed fetches whose adds carry increasing clock readings
      keeps ids unique and `total` equal to the list's length. */
  lemma FromInitial(reqs: seq<Request>)
    requires NoSuccessfulFetch(reqs) && FreshStamps(reqs, 0)
    ensures DistinctIds(Run(Initial, reqs).products)
    ensures Run(Initial, reqs).total == |Run(Initial, reqs).products|
  {
    RunKeepsIdsDistinct(Initial, reqs, 0);
    RunKeepsTotal(Initial, reqs);
  }
}

=== FILE: products_slice.dfy ===
/**
 The catalog store (`src/store/slices/productsSlice.js`): the products
 reducer, which reacts to the pending / fulfilled / rejected settlements of
 the fetch, add, update and delete thunks, and the payloads those thunks
 build from the HTTP responses. A response is an input; `Date.now()` is an
 input.
 */
module ProductsSlice {
  import opened Wrappers
  import opened Records
  import opened Async
  import opened Seqs

  datatype ProductsState = ProductsState(
    products: seq<Record>,
    total: int,
    isLoading: bool,
    error: Option<string>)

  /** The state the slice starts in. */
  const Initial: ProductsState := ProductsState([], 0, false, None)

  /** The four thunks. */
  datatype Op = Fetch | Add | Update | Delete

  /** The body of a successful list request: one page and the catalogue's
      total size, which need not equal the page's length. */
  datatype Listing = Listing(products: seq<Record>, total: int)

  datatype ProductsAction =
    | OpPending(op: Op)
    | OpRejected(op: Op, message: string)
    | FetchFulfilled(listing: Listing)
    | AddFulfilled(product: Record)
    | UpdateFulfilled(product: Record)
    | DeleteFulfilled(id: int)
    | ClearError

  /** The product's id field, `undefined` as `None`. */
  function IdOf(p: Record): Option<Value>
  {
    Get(p, "id")
  }

  /** `p.id === id`, where `None` is `undefined`. */
  predicate HasId(p: Record, id: Option<Value>)
  {
    IdOf(p) == id
  }

  /** `p => p.id === id`, the update reducer's `findIndex` test. */
  function IdIs(id: Option<Value>): Record -> bool
  {
    p => HasId(p, id)
  }

  /** `p => p.id !== id`, the delete reducer's `filter` test. */
  function IdIsNot(id: int): Record -> bool
  {
    p => !HasId(p, Some(Num(id)))
  }

  /** The update reducer's list step: the first product whose id equals the
      payload's is overlaid with the payload; when there is none the list
      is kept. */
  function MergeById(ps: seq<Record>, payload: Record): (r: seq<Record>)
    ensures |r| == |ps|
    ensures forall j :: 0 <= j < |ps| ==> Get(r[j], "id") == Get(ps[j], "id")
    ensures (forall j :: 0 <= j < |ps| ==> !HasId(ps[j], Get(payload, "id"))) ==> r == ps
    ensures (exists i :: 0 <= i < |ps| && HasId(ps[i], Get(payload, "id"))) ==>
              exists i :: (0 <= i < |ps| && HasId(ps[i], Get(payload, "id"))
                           && (forall j :: 0 <= j < i ==> !HasId(ps[j], Get(payload, "id")))
                           && r[i] == Overlay(ps[i], payload)
                           && forall j :: 0 <= j < |ps| && j != i ==> r[j] == ps[j])
  {
    var id := Get(payload, "id");
    match FirstIndex(ps, IdIs(id))
    case None => ps
    case Some(i) => ps[i := Overlay(ps[i], payload)]
  }

  /** The delete reducer's list step: every product with this id goes,
      the rest stay in order. */
  function RemoveId(ps: seq<Record>, id: int): (r: seq<Record>)
    ensures forall j :: 0 <= j < |r| ==> !HasId(r[j], Some(Num(id))) && r[j] in ps
    ensures forall j :: 0 <= j < |ps| && !HasId(ps[j], Some(Num(id))) ==> ps[j] in r
    ensures (forall j :: 0 <= j < |ps| ==> !HasId(ps[j], Some(Num(id)))) ==> r == ps
  {
    Filter(ps, IdIsNot(id))
  }

  /** The slice reducer. Pending and rejected settlements touch only the
      status fields; a fulfilled one leaves `error` as it was. */
  function Reduce(s: ProductsState, a: ProductsAction): (r: ProductsState)
    ensures a.OpPending? ==> (r.isLoading && r.error.None?
                              && r.products == s.products && r.total == s.total)
    ensures a.OpRejected? ==> (!r.isLoading && r.error == Some(a.message)
                               && r.products == s.products && r.total == s.total)
    ensures a.FetchFulfilled? || a.AddFulfilled? || a.UpdateFulfilled? || a.DeleteFulfilled? ==>
              !r.isLoading && r.error == s.error
    ensures a.FetchFulfilled? ==> r.products == a.listing.products && r.total == a.listing.total
    ensures a.AddFulfilled? ==> (|r.products| == |s.products| + 1 && r.total == |r.products|
                                 && r.products[0] == a.product && r.products[1..] == s.products)
    ensures a.UpdateFulfilled? ==> (|r.products| == |s.products| && r.total == s.total
                                    && forall j :: 0 <= j < |s.products| ==> Get(r.products[j], "id") == Get(s.products[j], "id"))
    ensures a.UpdateFulfilled? ==> r.products == MergeById(s.products, a.product)
    ensures a.DeleteFulfilled? ==> (r.total == |r.products| && |r.products| <= |s.products|
                                    && forall j :: 0 <= j < |r.products| ==> !HasId(r.products[j], Some(Num(a.id))))
    ensures a.DeleteFulfilled? ==> r.products == RemoveId(s.products, a.id)
    ensures a.ClearError? ==> (r.error.None? && r.products == s.products
                               && r.total == s.total && r.isLoading == s.isLoading)
  {
    match a
    case OpPending(_) =>
      s.(isLoading := true, error := None)
    case OpRejected(_, message) =>
      s.(isLoading := false, error := Some(message))
    case FetchFulfilled(listing) =>
      s.(isLoading := false, products := listing.products, total := listing.total)
    case AddFulfilled(product) =>
      var products := [product] + s.products;
      s.(isLoading := false, products := products, total := |products|)
    case UpdateFulfilled(product) =>
      s.(isLoading := false, products := MergeById(s.products, product))
    case DeleteFulfilled(id) =>
      var products := RemoveId(s.products, id);
      s.(isLoading := false, products := products, total := |products|)
    case ClearError =>
      s.(error := None)
  }

  const FetchFallback: string := "Failed to fetch products"
  const AddFallback: string := "Failed to add product"
  const UpdateFallback: string := "Failed to update product"
  const DeleteFallback: string := "Failed to delete product"

  /** Fields the add thunk always overrides in the server's echo. */
  function AddOverrides(now: nat): Record
  {
    map["id" := Num(now), "isLocal" := Flag(true), "thumbnail" := Text(""), "images" := List([])]
  }

  /** Fields the update thunk always overrides in the server's echo. */
  function UpdateOverrides(id: int): Record
  {
    map["id" := Num(id), "isUpdated" := Flag(true)]
  }

  /** `fetchProducts`: the response body as it came. */
  function FetchProducts(response: Response<Listing>): (r: Settled<Listing>)
    ensures r.Fulfilled? <==> response.Ok?
    ensures r.Fulfilled? ==> r.value == response.data
    ensures r.Rejected? ==> r.message == RejectMessage(response.serverMessage, FetchFallback)
  {
    match response
    case Ok(listing) => Fulfilled(listing)
    case Failed(m) => Rejected(RejectMessage(m, FetchFallback))
  }

  /** `addProduct`: the server's echo with a locally generated id (the
      server answers every create with the same placeholder id), marked
      local and with empty display metadata. */
  function AddProduct(response: Response<Record>, now: nat): (r: Settled<Record>)
    ensures r.Fulfilled? <==> response.Ok?
    ensures r.Fulfilled? ==> (Get(r.value, "id") == Some(Num(now))
                              && Get(r.value, "isLocal") == Some(Flag(true))
                              && Get(r.value, "thumbnail") == Some(Text(""))
                              && Get(r.value, "images") == Some(List([]))
                              && r.value.Keys == response.data.Keys + {"id", "isLocal", "thumbnail", "images"}
                              && forall k :: k !in {"id", "isLocal", "thumbnail", "images"} ==>
                                               Get(r.value, k) == Get(response.data, k))
    ensures r.Rejected? ==> r.message == RejectMessage(response.serverMessage, AddFallback)
  {
    match response
    case Ok(data) => Fulfilled(Overlay(data, AddOverrides(now)))
    case Failed(m) => Rejected(RejectMessage(m, AddFallback))
  }

  /** `updateProduct`: the server's echo with the numeric id the caller
      asked for, marked updated. */
  function UpdateProduct(id: int, response: Response<Record>): (r: Settled<Record>)
    ensures r.Fulfilled? <==> response.Ok?
    ensures r.Fulfilled? ==> (Get(r.value, "id") == Some(Num(id))
                              && Get(r.value, "isUpdated") == Some(Flag(true))
                              && r.value.Keys == response.data.Keys + {"id", "isUpdated"}
                              && forall k :: k !in {"id", "isUpdated"} ==>
                                               Get(r.value, k) == Get(response.data, k))
    ensures r.Rejected? ==> r.message == RejectMessage(response.serverMessage, UpdateFallback)
  {
    match response
    case Ok(data) => Fulfilled(Overlay(data, UpdateOverrides(id)))
    case Failed(m) => Rejected(RejectMessage(m, UpdateFallback))
  }

  /** `deleteProduct`: the id that was deleted; the response body is ignored. */
  function DeleteProduct(id: int, response: Response<Record>): (r: Settled<int>)
    ensures r.Fulfilled? <==> response.Ok?
    ensures r.Fulfilled? ==> r.value == id
    ensures r.Rejected? ==> r.message == RejectMessage(response.serverMessage, DeleteFallback)
  {
    match response
    case Ok(_) => Fulfilled(id)
    case Failed(m) => Rejected(RejectMessage(m, DeleteFallback))
  }

  /** One user request: the thunk to run, with the network's answer and,
      for an add, the clock reading. */
  datatype Request =
    | FetchRequest(listing: Response<Listing>)
    | AddRequest(added: Response<Record>, now: nat)
    | UpdateRequest(id: int, updated: Response<Record>)
    | DeleteRequest(id: int, deleted: Response<Record>)

  function OpOf(req: Request): Op
  {
    match req
    case FetchRequest(_) => Fetch
    case AddRequest(_, _) => Add
    case UpdateRequest(_, _) => Update
    case DeleteRequest(_, _) => Delete
  }

  predicate Succeeds(req: Request)
  {
    match req
    case FetchRequest(response) => response.Ok?
    case AddRequest(response, _) => response.Ok?
    case UpdateRequest(_, response) => response.Ok?
    case DeleteRequest(_, response) => response.Ok?
  }

  /** The action a thunk's settlement dispatches. */
  function SettleAction<T>(op: Op, settled: Settled<T>, fulfilled: T -> ProductsAction): ProductsAction
  {
    match settled
    case Fulfilled(v) => fulfilled(v)
    case Rejected(m) => OpRejected(op, m)
  }

  /** Dispatching one request as one atomic step: pending, then the
      settlement of its thunk. */
  function Dispatch(s: ProductsState, req: Request): (r: ProductsState)
    ensures !r.isLoading
    ensures Succeeds(req) ==> r.error.None?
    ensures !Succeeds(req) ==> r.error.Some? && r.products == s.products && r.total == s.total
    ensures Succeeds(req) && req.FetchRequest? ==>
              r.products == req.listing.data.products && r.total == req.listing.data.total
    ensures Succeeds(req) && req.AddRequest? ==>
              |r.products| == |s.products| + 1 && r.products[1..] == s.products && HasId(r.products[0], Some(Num(req.now)))
    ensures Succeeds(req) && (req.AddRequest? || req.DeleteRequest?) ==> r.total == |r.products|
    ensures req.UpdateRequest? ==> |r.products| == |s.products| && r.total == s.total
    ensures Succeeds(req) && req.UpdateRequest? ==>
              r.products == MergeById(s.products, Overlay(req.updated.data, UpdateOverrides(req.id)))
    ensures Succeeds(req) && req.DeleteRequest? ==> r.products == RemoveId(s.products, req.id)
    ensures Succeeds(req) && req.AddRequest? ==>
              r.products == [Overlay(req.added.data, AddOverrides(req.now))] + s.products
  {
    var s1 := Reduce(s, OpPending(OpOf(req)));
    var a := match req
      case FetchRequest(response) =>
        SettleAction(Fetch, FetchProducts(response), l => FetchFulfilled(l))
      case AddRequest(response, now) =>
        SettleAction(Add, AddProduct(response, now), p => AddFulfilled(p))
      case UpdateRequest(id, response) =>
        SettleAction(Update, UpdateProduct(id, response), p => UpdateFulfilled(p))
      case DeleteRequest(id, response) =>
        SettleAction(Delete, DeleteProduct(id, response), i => DeleteFulfilled(i));
    Reduce(s1, a)
  }

  /** Requests dispatched one after the other, each settling before the next. */
  function Run(s: ProductsState, reqs: seq<Request>): ProductsState
    decreases |reqs|
  {
    if |reqs| == 0 then s else Run(Dispatch(s, reqs[0]), reqs[1..])
  }
}

=== FILE: records.dfy ===
/**
 Plain JavaScript objects as the application handles them: product and user
 records are finite maps from field name to value.
 */
module Records {
  import opened Wrappers

  /** A field value. Integers and strings are modelled exactly; decimals
      (prices), nested objects (ratings, dimensions) and anything else the
      code only copies around are kept as opaque tokens. Equality of two
      values models `===` on the numbers and strings the code compares. */
  datatype Value =
    | Num(n: int)
    | Text(s: string)
    | Flag(b: bool)
    | List(items: seq<Value>)
    | Opaque(tag: string)

  /** A plain object: field name to value. */
  type Record = map<string, Value>

  /** Property read `o.field`; `None` is `undefined` for a missing field. */
  function Get(o: Record, field: string): Option<Value>
  {
    if field in o then Some(o[field]) else None
  }

  /** Object spread `{ ...base, ...top }`: every field of `top`, and every
      field of `base` that `top` does not mention. */
  function Overlay(base: Record, top: Record): (r: Record)
    ensures r.Keys == base.Keys + top.Keys
    ensures forall k :: k in top ==> Get(r, k) == Get(top, k)
    ensures forall k :: k !in top ==> Get(r, k) == Get(base, k)
  {
    base + top
  }

  /** Spreading the same object twice is the same as spreading it once. */
  lemma OverlayIdempotent(base: Record, top: Record)
    ensures Overlay(Overlay(base, top), top) == Overlay(base, top)
  {
  }
}

=== FILE: routes.dfy ===
/**
 The route table of `src/App.jsx`: which element each location renders for
 an authenticated or anonymous visitor, and whether the navigation bar is
 shown. Rendering itself is not modelled; a page is named, not drawn.
 */
module Routes {
  import opened Wrappers

  /** A location as its list of path segments, already normalised by the
      router: "/" is `[]`, "/products/edit/7" is `["products", "edit", "7"]`. */
  type Path = seq<string>

  const RootPath: Path := []
  const LoginPath: Path := ["login"]
  const ProductsPath: Path := ["products"]
  const AddPath: Path := ["products", "add"]

  datatype Page = LoginPage | ProductListPage | ProductFormPage(editId: Option<string>)

  /** A route's element: a page, a `<Navigate>` to another location, or
      nothing when no route matches. */
  datatype Element = Render(page: Page) | Redirect(to: Path) | NoMatch

  /** What `AppContent` shows. */
  datatype Screen = Screen(navbar: bool, content: Element)

  /** `ProtectedRoute`: the child for an authenticated visitor, a redirect
      to the login page otherwise. */
  function ProtectedRoute(isAuthenticated: bool, child: Page): (e: Element)
    ensures e == Render(child) <==> isAuthenticated
    ensures !isAuthenticated ==> e == Redirect(LoginPath)
  {
    if isAuthenticated then Render(child) else Redirect(LoginPath)
  }

  /** `/products/edit/:id`. */
  predicate IsEditPath(path: Path)
  {
    |path| == 3 && path[0] == "products" && path[1] == "edit" && path[2] != ""
  }

  /** The three product locations. */
  predicate IsProductPath(path: Path)
  {
    path == ProductsPath || path == AddPath || IsEditPath(path)
  }

  /** The `<Routes>` table. */
  function Route(path: Path, isAuthenticated: bool): (e: Element)
    ensures IsProductPath(path) ==> (e.Render? <==> isAuthenticated)
    ensures IsProductPath(path) && !isAuthenticated ==> e == Redirect(LoginPath)
    ensures IsProductPath(path) && isAuthenticated ==> e.page.ProductListPage? || e.page.ProductFormPage?
    ensures path == ProductsPath && isAuthenticated ==> e == Render(ProductListPage)
    ensures path == AddPath && isAuthenticated ==> e == Render(ProductFormPage(None))
    ensures IsEditPath(path) && isAuthenticated ==> e == Render(ProductFormPage(Some(path[2])))
    ensures path == LoginPath ==> e == (if isAuthenticated then Redirect(ProductsPath) else Render(LoginPage))
    ensures path == RootPath ==> e == Redirect(ProductsPath)
    ensures e.NoMatch? <==> !(IsProductPath(path) || path == LoginPath || path == RootPath)
  {
    if path == LoginPath then
      if isAuthenticated then Redirect(ProductsPath) else Render(LoginPage)
    else if path == ProductsPath then ProtectedRoute(isAuthenticated, ProductListPage)
    else if path == AddPath then ProtectedRoute(isAuthenticated, ProductFormPage(None))
    else if IsEditPath(path) then ProtectedRoute(isAuthenticated, ProductFormPage(Some(path[2])))
    else if path == RootPath then Redirect(ProductsPath)
    else NoMatch
  }

  /** `AppContent`: the navigation bar for authenticated visitors, then the
      route. The bar never sits above the login page, and it is always
      there above a product page. */
  function AppContent(path: Path, isAuthenticated: bool): (s: Screen)
    ensures s.navbar <==> isAuthenticated
    ensures s.content == Route(path, isAuthenticated)
    ensures s.content == Render(LoginPage) ==> !s.navbar
    ensures s.content.Render? && !s.content.page.LoginPage? ==> s.navbar
  {
    Screen(isAuthenticated, Route(path, isAuthenticated))
  }

  /** Following redirects, at most `hops` of them. */
  function Follow(path: Path, isAuthenticated: bool, hops: nat): Element
    decreases hops
  {
    var e := Route(path, isAuthenticated);
    if e.Redirect? && hops > 0 then Follow(e.to, isAuthenticated, hops - 1) else e
  }

  /** There is no redirect loop: from any location, at most two redirects
      lead to a page or to no match. */
  lemma RedirectsSettle(path: Path, isAuthenticated: bool)
    ensures !Follow(path, isAuthenticated, 2).Redirect?
  {
  }

  /** An anonymous visitor never reaches a product page, and an
      authenticated one never reaches the login page. */
  lemma {:induction false} GateHolds(path: Path, hops: nat)
    ensures Follow(path, false, hops) != Render(ProductListPage)
    ensures !(Follow(path, false, hops).Render? && Follow(path, false, hops).page.ProductFormPage?)
    ensures Follow(path, true, hops) != Render(LoginPage)
    decreases hops
  {
    if hops > 0 {
      var anon, known := Route(path, false), Route(path, true);
      if anon.Redirect? {
        GateHolds(anon.to, hops - 1);
      }
      if known.Redirect? {
        GateHolds(known.to, hops - 1);
      }
    }
  }
}

=== FILE: seqs.dfy ===
/**
 The two array operations the reducers and the user directory rely on:
 `findIndex` / `find` (the first element satisfying a predicate) and
 `filter` (the elements satisfying a predicate, in order).
 */
module Seqs {
  import opened Wrappers

  /** `s.findIndex(p)`, with `None` for JavaScript's `-1`. */
  function FirstIndex<T>(s: seq<T>, p: T -> bool): (r: Option<nat>)
    ensures r.Some? ==> r.value < |s| && p(s[r.value])
    ensures r.Some? ==> forall j :: 0 <= j < r.value ==> !p(s[j])
    ensures r.None? <==> forall j :: 0 <= j < |s| ==> !p(s[j])
    decreases |s|
  {
    if |s| == 0 then None
    else if p(s[0]) then Some(0)
    else
      match FirstIndex(s[1..], p)
      case None => None
      case Some(i) => Some(i + 1)
  }

  /** `findIndex` only looks at what the test says of each element. */
  lemma FirstIndexAgrees<T>(a: seq<T>, b: seq<T>, p: T -> bool)
    requires |a| == |b|
    requires forall j :: 0 <= j < |a| ==> p(a[j]) == p(b[j])
    ensures FirstIndex(a, p) == FirstIndex(b, p)
  {
  }

  /** `s.filter(keep)`. */
  function Filter<T>(s: seq<T>, keep: T -> bool): (r: seq<T>)
    ensures |r| <= |s|
    ensures forall j :: 0 <= j < |r| ==> r[j] in s && keep(r[j])
    ensures forall j :: 0 <= j < |s| && keep(s[j]) ==> s[j] in r
    ensures (forall j :: 0 <= j < |s| ==> keep(s[j])) ==> r == s
    decreases |s|
  {
    if |s| == 0 then []
    else
      var rest := Filter(s[1..], keep);
      if keep(s[0]) then [s[0]] + rest else rest
  }

  /** Filtering keeps the relative order: it distributes over concatenation. */
  lemma {:induction false} FilterConcat<T>(a: seq<T>, b: seq<T>, keep: T -> bool)
    ensures Filter(a + b, keep) == Filter(a, keep) + Filter(b, keep)
    decreases |a|
  {
    if |a| > 0 {
      assert (a + b)[1..] == a[1..] + b;
      FilterConcat(a[1..], b, keep);
    } else {
      assert a + b == b;
    }
  }

  /** No two elements share a key. */
  ghost predicate DistinctBy<T, K>(s: seq<T>, key: T -> K)
  {
    forall i, j :: 0 <= i < j < |s| ==> key(s[i]) != key(s[j])
  }

  /** Filtering never introduces a duplicate key. */
  lemma {:induction false} FilterKeepsDistinct<T, K>(s: seq<T>, keep: T -> bool, key: T -> K)
    requires DistinctBy(s, key)
    ensures DistinctBy(Filter(s, keep), key)
    decreases |s|
  {
    if |s| > 0 {
      var tail := s[1..];
      var rest := Filter(tail, keep);
      FilterKeepsDistinct(tail, keep, key);
      if keep(s[0]) {
        var r := [s[0]] + rest;
        forall i, j | 0 <= i < j < |r|
          ensures key(r[i]) != key(r[j])
        {
          if i == 0 {
            assert rest[j - 1] in tail;
            var m :| 0 <= m < |tail| && tail[m] == rest[j - 1];
            assert s[m + 1] == r[j];
          } else {
            assert r[i] == rest[i - 1] && r[j] == rest[j - 1];
          }
        }
      }
    }
  }
}

=== FILE: storage.dfy ===
/**
 The browser's `localStorage`, as the application uses it: three keys, each
 holding either a plain string (the session token) or the JSON text of one
 user record or of a list of user records. The JSON encoding is abstracted
 away by keeping the decoded value.
 */
module Storage {
  import opened Wrappers
  import opened Records

  datatype Entry =
    | Raw(text: string)
    | UserJson(user: Record)
    | UsersJson(users: seq<Record>)

  type Store = map<string, Entry>

  const TokenKey: string := "token"
  const UserKey: string := "user"
  const UsersKey: string := "registeredUsers"

  /** `localStorage.getItem(key)`; `None` is `null`. */
  function GetItem(st: Store, key: string): Option<Entry>
  {
    if key in st then Some(st[key]) else None
  }

  /** `localStorage.setItem(key, e)`. */
  function SetItem(st: Store, key: string, e: Entry): Store
  {
    st[key := e]
  }

  /** `localStorage.removeItem(key)`. */
  function RemoveItem(st: Store, key: string): Store
  {
    st - {key}
  }
}

=== FILE: user_storage.dfy ===
/**
 The locally registered user directory (`src/utils/userStorage.js`): an
 ordered sequence of user records kept under one storage key. Registration
 appends; login looks a user up by exact username and password.
 */
module UserStorage {
  import opened Wrappers
  import opened Records
  import opened Storage
  import opened Seqs

  /** `getUsers`: the stored directory, or none when the key is absent. */
  function GetUsers(st: Store): (users: seq<Record>)
    ensures UsersKey !in st ==> users == []
    ensures UsersKey in st && st[UsersKey].UsersJson? ==> users == st[UsersKey].users
    ensures UsersKey in st && st[UsersKey] == Raw("") ==> users == []
  {
    match GetItem(st, UsersKey)
    case Some(UsersJson(rs)) => rs
    case _ => []
  }

  /** `user.username === username && user.password === password`. */
  predicate HasCredentials(u: Record, username: Option<Value>, password: Option<Value>)
  {
    Get(u, "username") == username && Get(u, "password") == password
  }

  /** `user.username === username || user.email === email`. */
  predicate Collides(u: Record, username: Option<Value>, email: Option<Value>)
  {
    Get(u, "username") == username || Get(u, "email") == email
  }

  /** `findUser`: the first registered user whose username and password both
      equal the inputs, or none. */
  function FindUser(st: Store, username: Option<Value>, password: Option<Value>): (r: Option<Record>)
    ensures r.Some? <==> exists i :: 0 <= i < |GetUsers(st)| && HasCredentials(GetUsers(st)[i], username, password)
    ensures r.Some? ==> exists i :: (0 <= i < |GetUsers(st)| && r.value == GetUsers(st)[i]
                                     && HasCredentials(r.value, username, password)
                                     && forall j :: 0 <= j < i ==> !HasCredentials(GetUsers(st)[j], username, password))
  {
    var users := GetUsers(st);
    match FirstIndex(users, u => HasCredentials(u, username, password))
    case None => None
    case Some(i) => Some(users[i])
  }

  /** `userExists`: some registered user has this username OR this email. */
  function UserExists(st: Store, username: Option<Value>, email: Option<Value>): (b: bool)
    ensures b <==> exists i :: (0 <= i < |GetUsers(st)| &&
                                (Get(GetUsers(st)[i], "username") == username || Get(GetUsers(st)[i], "email") == email))
  {
    FirstIndex(GetUsers(st), u => Collides(u, username, email)).Some?
  }

  /** The record `saveUser` stores: the input fields, with `id` and
      `createdAt` set from the clock. */
  function NewUser(userData: Record, id: nat, createdAt: string): Record
  {
    Overlay(userData, map["id" := Num(id), "createdAt" := Text(createdAt)])
  }

  datatype Saved = Saved(user: Record, store: Store)

  /** `saveUser`: appends one record to the directory and returns it. `now`
      is `Date.now()`, `createdAt` is `new Date().toISOString()`. */
  function SaveUser(st: Store, userData: Record, now: nat, createdAt: string): (s: Saved)
    ensures GetUsers(s.store) == GetUsers(st) + [s.user]
    ensures s.user.Keys == userData.Keys + {"id", "createdAt"}
    ensures Get(s.user, "id") == Some(Num(now)) && Get(s.user, "createdAt") == Some(Text(createdAt))
    ensures forall k :: k != "id" && k != "createdAt" ==> Get(s.user, k) == Get(userData, k)
    ensures forall key :: key != UsersKey ==> GetItem(s.store, key) == GetItem(st, key)
  {
    var user := NewUser(userData, now, createdAt);
    Saved(user, SetItem(st, UsersKey, UsersJson(GetUsers(st) + [user])))
  }

  /** No two registered users share a username, and no two share an email. */
  ghost predicate DistinctKeys(users: seq<Record>)
  {
    forall i, j :: 0 <= i < j < |users| ==>
      Get(users[i], "username") != Get(users[j], "username") &&
      Get(users[i], "email") != Get(users[j], "email")
  }

  /** A user just saved can log in with the username and password they
      registered with; when no earlier user holds the same pair, the saved
      record itself is the one found. */
  lemma SavedUserIsFound(st: Store, userData: Record, now: nat, createdAt: string)
    ensures var s := SaveUser(st, userData, now, createdAt);
      FindUser(s.store, Get(userData, "username"), Get(userData, "password")).Some?
    ensures var s := SaveUser(st, userData, now, createdAt);
      FindUser(st, Get(userData, "username"), Get(userData, "password")).None? ==>
      FindUser(s.store, Get(userData, "username"), Get(userData, "password")) == Some(s.user)
  {
    var s := SaveUser(st, userData, now, createdAt);
    var users := GetUsers(s.store);
    var u, p := Get(userData, "username"), Get(userData, "password");
    assert users[|users| - 1] == s.user;
    assert HasCredentials(s.user, u, p);
    if FindUser(st, u, p).None? {
      var before := GetUsers(st);
      forall j | 0 <= j < |before|
        ensures !HasCredentials(users[j], u, p)
      {
        assert users[j] == before[j];
      }
      var r := FindUser(s.store, u, p);
      var i :| 0 <= i < |users| && r.value == users[i] && HasCredentials(r.value, u, p)
        && forall j :: 0 <= j < i ==> !HasCredentials(users[j], u, p);
      assert i == |users| - 1;
    }
  }

  /** Registration's guard keeps the directory free of duplicates: when the
      directory has distinct usernames and emails and neither the new
      username nor the new email is taken, saving keeps them distinct. */
  lemma SavePreservesDistinctKeys(st: Store, userData: Record, now: nat, createdAt: string)
    requires DistinctKeys(GetUsers(st))
    requires !UserExists(st, Get(userData, "username"), Get(userData, "email"))
    ensures DistinctKeys(GetUsers(SaveUser(st, userData, now, createdAt).store))
  {
    var before := GetUsers(st);
    var users := GetUsers(SaveUser(st, userData, now, createdAt).store);
    forall i, j | 0 <= i < j < |users|
      ensures Get(users[i], "username") != Get(users[j], "username")
      ensures Get(users[i], "email") != Get(users[j], "email")
    {
      if j == |before| {
        assert users[i] == before[i];
      } else {
        assert users[i] == before[i] && users[j] == before[j];
      }
    }
  }
}

=== FILE: wrappers.dfy ===
/** An optional value; `None` stands for JavaScript's `null` / `undefined`. */
module Wrappers {

  datatype Option<+T> = None | Some(value: T)
}
